=== FILE: README.md ===
# Page-oriented disk manager

A model of the disk manager of a small storage engine (`disk/manager.go`).
The manager owns one heap file and one page-id counter. Page `id` occupies
the byte range `[id * 4096, id * 4096 + 4096)` of the heap file. The manager
offers three operations on it: `Alloc` hands out page ids; `Write(id, p)` seeks
to the page offset and writes `p`; `Read(id, p)` seeks there and reads into
`p`. `NewManager` opens or creates the heap file and starts the counter at
`fileSize / 4096`.

The model is functional. A manager is the value `Manager(heapFile, nextPageId)`:
the logical contents of the heap file as a byte sequence, in which holes read as
zero, and the counter. Each operation is a pure function. `Alloc` and `Write`
return the manager after the call together with what the Go method returns, and
`NewManager` returns the new manager or the error. `Read` leaves the manager
unchanged and returns only what the Go method returns. The Go methods return a
count, an error (`nil`, `io.EOF`, a `Seek` error for an unrepresentable offset,
or an I/O error), and for `Read` the caller's buffer afterwards.

The Go code is a thin layer over `os.File`. The parts of `os.File` behaviour
it relies on are written out in module `OsFile`:

- Writing past the end zero-fills the gap.
- Reading at or past the end returns `(0, io.EOF)`.
- A read inside the file returns as many bytes as the buffer and the file
  both still hold, with no error.
- An empty buffer transfers nothing and reports no error, on both read and
  write.

The operating system's failures are a `Fault` parameter on each call (and an
`OpenFault` on construction). This lets the model cover the source's error
paths instead of ruling them out.

Modules:
- `OsFile` (os_file.dfy): bytes, errors, faults, and positioned `ReadAt` /
  `WriteAt` on a byte sequence. Also the byte-level facts about disjoint
  ranges.
- `Disk` (manager.dfy): `PAGE_SIZE`, `PageId`, `Manager`, `NewManager`,
  `Alloc`, `Write`, `Read`.
- `Allocation` (allocation.dfy): runs of `Alloc`, and how the counter is
  recovered on reopen.
- `PageIo` (page_io.dfy): the round trip, last write wins, non-interference,
  writes that commute, and end of file for unwritten pages.
- `Scenarios` (scenarios.dfy): the call sequences of `disk/manager_test.go`.
- `Overflow` (overflow.dfy): the `uint64` offset wrap-around (see Findings).

Two consequences of this `os.File` behaviour are easy to miss:
- A zero-length `Write` past the end of the file does not extend the file.
  The new length is `max(old, offset + len(p))` only for a non-empty `p`.
- A read that starts inside the file but runs past its end returns the short
  count with a `nil` error. Go reports `io.EOF` only on the next read, when
  nothing is left.

## Model

| member | source | states |
|---|---|---|
| OsFile.Overlay | disk/manager.go:65 | laying `p` over the file at `off`: length is `max(old, off + len(p))`; each byte is `p`'s inside `[off, off + len(p))` and otherwise the old byte, with zero for holes past the old end |
| OsFile.WriteAt | disk/manager.go:65 | `File.Write` at the sought offset: an empty write changes nothing; otherwise the old prefix before the offset is kept, `p` lands at the offset, the gap past the old end is zeros, and old bytes after the write are kept |
| OsFile.ReadAt | disk/manager.go:52 | `File.Read` at the sought offset: `io.EOF` exactly when the buffer is non-empty and the offset is at or past the end; then the count is 0 and the buffer is untouched. Otherwise the count is maximal (a short count only where the file ends), the first `n` buffer bytes are the file's bytes from the offset, and the rest are untouched |
| OsFile.WriteAtKeepsDisjoint | disk/manager_test.go:177-239 | a write to a byte range that does not overlap `[at, at + len(p))` keeps the bytes `p` found there |
| OsFile.WriteAtLeavesReadAt | disk/manager_test.go:177-239 | a write that ends before a read starts, or that starts after a read which lies inside the file, leaves that read's result unchanged |
| OsFile.WriteAtCommute | disk/manager_test.go:177-201 | two writes to non-overlapping ranges give the same file in either order |
| Disk.SeekOffset | disk/manager.go:47-48 | the seek succeeds exactly when the page's offset `id * 4096` fits in an `int64` (`Addressable`); the offset is then a multiple of `PAGE_SIZE` whose quotient is the page id; otherwise the result is the `Seek` error |
| Disk.NewManager | disk/manager.go:31-44 | construction fails (with an I/O error) exactly when opening or stat-ing the file fails; on success the heap file is the file on disk and the counter `c` satisfies `c * 4096 <= size < (c + 1) * 4096` |
| Disk.Alloc | disk/manager.go:72-76 | returns the current counter, leaves the counter one higher, and does not touch the heap file |
| Disk.Landed | disk/manager.go:65-67 | the bytes a failing write leaves in the file form a prefix of `p`; a healthy write leaves all of `p` |
| Disk.Write | disk/manager.go:59-70 | success exactly when the offset is representable and nothing fails, with `n == len(p)`; every failure reports `n == 0` (a failed seek or a bad offset leaves the manager unchanged, a failed transfer may leave a prefix of `p`); the file becomes `p` written at `id * 4096`; the counter is untouched |
| Disk.Read | disk/manager.go:46-57 | `io.EOF` exactly when the offset is valid, nothing fails, the buffer is non-empty and the file ends at or before `id * 4096`; an invalid offset reports the `Seek` error and a seek or read fault on a valid one reports an I/O error, never a bad offset; every failure reports `n == 0` and leaves the buffer alone; a success copies the file's bytes from `id * 4096` into the first `n` buffer positions, and `n` is short only at the end of the file |
| Allocation.AllocMany | disk/manager_test.go:25-27 | `k` successive `Alloc` calls return `next, next + 1, ..., next + k - 1`; afterwards the counter is `next + k` and the file is unchanged |
| Allocation.AllocIdsStrictlyIncrease | disk/manager.go:72-76 | ids from successive `Alloc` calls strictly increase (so none repeats), and each lies between the old counter and the new one |
| Allocation.FreshStoreAllocatesFromZero | disk/manager.go:36-43 | on a new, empty heap file the manager opens and hands out 0, 1, 2, ... |
| Allocation.ReopenResumesAtWholePages | disk/manager.go:36-43 | reopening a file of `N` whole pages plus a tail shorter than a page resumes allocation at `N` |
| Allocation.ReopenSkipsFullyWrittenPage | disk/manager.go:42 | after a full page has been written at `id`, a manager reopened on the file never hands out `id` again |
| Allocation.ReopenReissuesPartialLastPage | disk/manager.go:42 | when a page written only in part ends the file, a reopened manager's first `Alloc` hands that page's id out again |
| PageIo.WriteAllNeverShrinks | disk/manager.go:59-70 | any sequence of page writes, each successful or failed, leaves the heap file at least as long as before |
| PageIo.WriteEffects | disk/manager.go:59-70 | a successful `Write(id, p)` returns `len(p)` and no error; the bytes at `[id * 4096, id * 4096 + len(p))` become `p`; every other byte keeps its old value, with holes zero; the file grows to `max(old, id * 4096 + len(p))` unless `p` is empty |
| PageIo.WriteEstablishesHolds | disk/manager.go:59-70 | after a successful write the file holds `p` at the page's offset |
| PageIo.DisjointWriteKeepsHolds | disk/manager_test.go:177-239 | a write to a non-overlapping range, successful or failed, keeps a page's bytes |
| PageIo.HoldsReadsBack | disk/manager.go:46-57 | reading at most `len(p)` bytes from a page holding `p` returns that many bytes, no error, and that prefix of `p` |
| PageIo.WriteThenRead | disk/manager_test.go:65-75 | round trip: after `Write(id, p)`, `Read(id, buf)` with `len(buf) <= len(p)` returns `len(buf)`, no error, and `p`'s first `len(buf)` bytes |
| PageIo.HoldsUnderDisjointWrites | disk/manager_test.go:177-239 | a page keeps its bytes through any sequence of writes to non-overlapping ranges, each of which may succeed or fail |
| PageIo.LastWriteWins | disk/manager_test.go:170-239 | a page reads back what was last written to it, whatever writes to non-overlapping ranges follow, in any order, whether they succeed or fail |
| PageIo.DisjointWriteLeavesReadUnchanged | disk/manager_test.go:115-137 | a write, successful or failed, to a range that does not overlap a read leaves that read's result unchanged. This needs the read to lie after the write or wholly inside the old file |
| PageIo.DisjointWritesCommute | disk/manager_test.go:177-201 | two page writes to non-overlapping ranges, each successful or failed, leave the same manager whichever is issued first |
| PageIo.UnwrittenPageReadsEOF | disk/manager_test.go:41-63 | a page past the end of the file reads as `(0, io.EOF)` with the buffer untouched, as long as every later write (successful or failed) ends at or before its offset |
| PageIo.HoleReadsAsZeros | disk/manager.go:46-57 | a never-written page whose slot a write to a later page has pulled inside the file reads back `len(buf)` zero bytes with no error, not `io.EOF` |
| Scenarios.WriteReadInterleaved | disk/manager_test.go:20-101 | on a new file: ids 0, 1, 2; writing 1000 'x' to page 0 leaves pages 1 and 2 at end of file with zeroed buffers; page 0 reads back its 'x's; after 500 'y' go to page 1, page 1 reads them back |
| Scenarios.OutOfOrderWritesReadBack | disk/manager_test.go:104-241 | writing pages 0, 2 (20000 bytes, spanning several slots) and 1 in that order, each write reports its full length, and each page reads back exactly its own data |
| Scenarios.SkippedPageReadsAsZeros | disk/manager.go:46-57 | on a new file with ids 0, 1, 2 allocated, page 1 reads `(0, io.EOF)`; once only page 2 is written, page 1 reads 10 zero bytes with no error |
| Overflow.SeekOffsetAsWritten | disk/manager.go:47-48 | the offset as the source computes it (a `uint64` product wrapping modulo 2^64, rejected by `Seek` past `int64`) is accepted only when it fits in an `int64`, and is rejected with the `Seek` error otherwise |
| Overflow.AsWrittenRepeatsEvery2To52 | disk/manager.go:47-48 | for every `uint64` id of 2^52 or more the source's offset equals that of the id 2^52 lower, so each such id aliases a smaller page's slot or meets the same `Seek` error; with Overflow.AsWrittenAgreesBelowWrap this fixes the source's offset on all of [0, 2^64) |
| Overflow.WrappedOffsetAliasesPageZero | disk/manager.go:47-48 | page 2^52 and page 0 reach the same offset 0 in the source's arithmetic |
| Overflow.AsWrittenAgreesBelowWrap | disk/manager.go:47-48 | for every id below 2^52 the source's wrapping offset and the model's offset give the same result: the same offset, or the same `Seek` error |
| Overflow.AsWrittenRejectsNegativeInt64 | disk/manager.go:47-48 | ids from 2^51 up to 2^52 fail at `Seek` with the invalid-offset error, in the source's arithmetic and in the model alike |
| Overflow.SlotsNeverOverlap | disk/manager.go:47 | with the model's offset, a smaller id is addressable whenever a larger one is, and the slots of distinct ids do not overlap |

## Left out

- File handles and the operating system are not modelled: `os.OpenFile`, `Stat` and `Seek`. The file is its contents as a byte sequence. Failures of these calls are the `Fault` and `OpenFault` parameters. The file cursor is not state, because every call seeks first.
- Physical sparseness is not modelled: holes are zeros in the byte sequence, whether or not the file system allocates them.
- PageIo.UnwrittenPageReadsEOF: "a never-written page reads as `(0, io.EOF)`" holds only for pages past the end of the file. A never-written page inside the file is a hole, and it reads as zeros with no error, as Go's `os.File` does (`PageIo.HoleReadsAsZeros`, `Scenarios.SkippedPageReadsAsZeros`). This covers a page skipped by a write to a later page and a page that a longer earlier write ran over.
- Concurrency is not modelled: the source has no locking, and the model is single-threaded.
- Disk.Alloc: does not model the `uint64` wrap of `nextPageId++` after 2^64 allocations. The counter is an unbounded `nat`.
- Disk.SeekOffset: uses the unbounded product `id * 4096`. Go computes it modulo 2^64, so it differs for ids of 2^52 and above (see Findings). Below that it agrees with Go (`Overflow.AsWrittenAgreesBelowWrap`), and ids from 2^51 to 2^52 fail at `Seek` in both (`Overflow.AsWrittenRejectsNegativeInt64`).
- Disk.Read: does not model Go capping a single read at 1 GiB. It does not model a failed read system call leaving bytes in the buffer: on failure the buffer is unchanged.
- Disk.Write: does not model file-size limits of the operating system as such. They can only appear as a `TransferFault`.
- Persistence across restarts is covered only by `NewManager` taking the existing file contents. There is no other crash or reopen behaviour.
- `Manager` as a Go interface, and closing the file, are not modelled: there is nothing to verify in them.

## Findings

| source | as written | input that shows it | evidently intended | confidence | as-written member | corrected member |
|---|---|---|---|---|---|---|
| disk/manager.go:47-48 | the offset `PAGE_SIZE * pageId` is a `uint64` product that wraps modulo 2^64 before it reaches `Seek` | page id 2^52: the product wraps to 0, so `Read`/`Write` of page 2^52 act on page 0's bytes | every page id addresses its own slot, or the call fails | medium (not executed; ids this large are never handed out by `Alloc` in practice, but `Read`/`Write` accept any `PageId`) | Overflow.SeekOffsetAsWritten, Overflow.WrappedOffsetAliasesPageZero, Overflow.AsWrittenRepeatsEvery2To52 | Disk.SeekOffset, Overflow.SlotsNeverOverlap, Overflow.AsWrittenAgreesBelowWrap |

=== FILE: allocation.dfy ===
/**
 Page-id allocation over many calls, and how a reopened manager recovers its
 counter from the length of the heap file.
 */
module Allocation {
  import opened OsFile
  import opened Disk

  datatype AllocatedMany = AllocatedMany(m: Manager, ids: seq<PageId>)

  /** `k` successive calls to `Alloc`: the ids in the order they were handed out,
      and the manager after the last call. */
  function AllocMany(m: Manager, k: nat): (r: AllocatedMany)
    ensures |r.ids| == k
    ensures r.m.heapFile == m.heapFile
    ensures r.m.nextPageId == m.nextPageId + k
    ensures forall i :: 0 <= i < k ==> r.ids[i] == m.nextPageId + i
    decreases k
  {
    if k == 0 then AllocatedMany(m, [])
    else
      var first := Alloc(m);
      var rest := AllocMany(first.m, k - 1);
      AllocatedMany(rest.m, [first.id] + rest.ids)
  }

  /** Successive ids are strictly increasing, so no id is handed out twice, and
      every id handed out lies below the counter afterwards. */
  lemma AllocIdsStrictlyIncrease(m: Manager, k: nat)
    ensures forall i, j :: 0 <= i < j < k ==> AllocMany(m, k).ids[i] < AllocMany(m, k).ids[j]
    ensures forall i :: 0 <= i < k ==>
              m.nextPageId <= AllocMany(m, k).ids[i] < AllocMany(m, k).m.nextPageId
  {
  }

  /** On a freshly created (empty) heap file the ids are 0, 1, 2, ... */
  lemma FreshStoreAllocatesFromZero(k: nat)
    ensures NewManager([], NoOpenFault).Success?
    ensures forall i :: 0 <= i < k ==> AllocMany(NewManager([], NoOpenFault).value, k).ids[i] == i
  {
  }

  /** Reopening a file of `pages` whole pages and a `tail` shorter than a page
      resumes allocation at `pages`. */
  lemma ReopenResumesAtWholePages(onDisk: seq<byte>, pages: nat, tail: nat)
    requires tail < PAGE_SIZE && |onDisk| == PageOffset(pages) + tail
    ensures NewManager(onDisk, NoOpenFault).Success?
    ensures NewManager(onDisk, NoOpenFault).value.nextPageId == pages
  {
  }

  /** A page written in full is never handed out again by a manager reopened on
      the resulting file. */
  lemma ReopenSkipsFullyWrittenPage(m: Manager, id: PageId, p: seq<byte>)
    requires Addressable(id) && |p| >= PAGE_SIZE
    ensures NewManager(Write(m, id, p, Healthy).m.heapFile, NoOpenFault).value.nextPageId > id
  {
  }

  /** A page written only in part, when it is the last thing in the file, is
      handed out again by the first `Alloc` of a reopened manager: the counter is
      recovered from whole pages only. */
  lemma ReopenReissuesPartialLastPage(m: Manager, id: PageId, p: seq<byte>)
    requires Addressable(id) && 0 < |p| < PAGE_SIZE && |m.heapFile| <= PageOffset(id) + |p|
    ensures Alloc(NewManager(Write(m, id, p, Healthy).m.heapFile, NoOpenFault).value).id == id
  {
    var file := Write(m, id, p, Healthy).m.heapFile;
    assert |file| == PageOffset(id) + |p|;
    ReopenResumesAtWholePages(file, id, |p|);
  }
}

=== FILE: manager.dfy ===
/**
 The page-oriented disk manager: one heap file and one allocation counter.
 Page `id` lives at byte offset `id * PAGE_SIZE` of the heap file. The manager
 is an immutable value; each operation returns the manager after the call
 together with what the Go method returns.
 */
module Disk {
  import opened OsFile

  /** The size of one page slot in the heap file. */
  const PAGE_SIZE: nat := 4096

  /** Page ids are `uint64` in Go; here they are unbounded (see the overflow finding). */
  type PageId = nat

  /** The byte offset of page `id`'s slot, `id * PAGE_SIZE`. The constant is
      spelled out so that the offset arithmetic stays linear for the verifier. */
  function PageOffset(id: PageId): (off: nat)
  {
    id * 4096
  }

  datatype Manager = Manager(heapFile: seq<byte>, nextPageId: PageId)

  /** Which step of opening the heap file the operating system makes fail, if any. */
  datatype OpenFault = NoOpenFault | OpenFails | StatFails

  datatype Allocated = Allocated(m: Manager, id: PageId)

  /** What `Write` returns, with the manager after the call. */
  datatype Written = Written(m: Manager, n: nat, status: Status)

  /** The offset `Seek` is asked to move to for page `id`. The source converts the
      `uint64` product to `int64`, so offsets above `MAX_INT64` come back as a
      `Seek` error rather than a position. */
  function SeekOffset(id: PageId): (r: Result<nat>)
    ensures r.Success? <==> Addressable(id)
    ensures r.Success? ==> r.value % PAGE_SIZE == 0 && r.value / PAGE_SIZE == id
    ensures r.Failure? ==> r.error == InvalidOffset
  {
    var offset := PageOffset(id);
    if offset <= MAX_INT64 then Success(offset) else Failure(InvalidOffset)
  }

  /** The ids whose page slot `Seek` can reach: the slot starts at an offset that
      fits in an `int64`. */
  predicate Addressable(id: PageId)
  {
    PageOffset(id) <= MAX_INT64
  }

  /** `NewManager`: opens (or creates, as an empty file) the heap file whose
      current contents are `onDisk`, and resumes allocation after the last whole
      page the file holds. Failing to open or to stat the file fails the whole
      construction. */
  function NewManager(onDisk: seq<byte>, fault: OpenFault): (r: Result<Manager>)
    ensures r.Failure? <==> !fault.NoOpenFault?
    ensures r.Failure? ==> r.error == IoError
    ensures r.Success? ==> r.value.heapFile == onDisk
    ensures r.Success? ==>
              PageOffset(r.value.nextPageId) <= |onDisk| < PageOffset(r.value.nextPageId + 1)
  {
    match fault
    case OpenFails => Failure(IoError)
    case StatFails => Failure(IoError)
    case NoOpenFault => Success(Manager(onDisk, |onDisk| / PAGE_SIZE))
  }

  /** `Alloc`: hands out the counter's value and moves the counter on by one.
      It never looks at the heap file. */
  function Alloc(m: Manager): (r: Allocated)
    ensures r.id == m.nextPageId
    ensures r.m.nextPageId == r.id + 1
    ensures r.m.heapFile == m.heapFile
  {
    Allocated(m.(nextPageId := m.nextPageId + 1), m.nextPageId)
  }

  /** The bytes of `p` that reach the file when the write system call meets `fault`:
      all of them, a prefix, or none when the seek before it failed. */
  function Landed(p: seq<byte>, fault: Fault): (l: seq<byte>)
    ensures |l| <= |p| && l == p[..|l|]
    ensures fault.Healthy? ==> l == p
  {
    match fault
    case Healthy => p
    case SeekFault => []
    case TransferFault(done) => p[..Min(done, |p|)]
  }

  /** `Write`: seeks to page `id` and writes `p` there. Every failure reports a
      count of zero, even when the failed write system call had already put part
      of `p` into the file. */
  function Write(m: Manager, id: PageId, p: seq<byte>, fault: Fault): (r: Written)
    ensures r.m.nextPageId == m.nextPageId
    ensures r.status.Ok? <==> Addressable(id) && fault.Healthy?
    ensures r.status.Ok? ==> r.n == |p|
    ensures r.status.Fail? ==> r.n == 0
    ensures !Addressable(id) ==> r.status == Fail(InvalidOffset) && r.m == m
    ensures Addressable(id) && !fault.Healthy? ==> r.status == Fail(IoError)
    ensures fault.SeekFault? ==> r.m == m
    ensures Addressable(id) ==> r.m.heapFile == WriteAt(m.heapFile, PageOffset(id), Landed(p, fault))
  {
    match SeekOffset(id)
    case Failure(e) => Written(m, 0, Fail(e))
    case Success(offset) =>
      match fault
      case SeekFault => Written(m, 0, Fail(IoError))
      case TransferFault(_) =>
        var file := WriteAt(m.heapFile, offset, Landed(p, fault));
        Written(m.(heapFile := file), 0, Fail(IoError))
      case Healthy =>
        var file := WriteAt(m.heapFile, offset, p);
        Written(m.(heapFile := file), |p|, Ok)
  }

  /** `Read`: seeks to page `id` and reads into the caller's buffer `p`. Reading
      at or past the end of the heap file reports `io.EOF` with a count of zero,
      distinct from an I/O failure; inside the file the read may come up short
      only where the file ends. */
  function Read(m: Manager, id: PageId, p: seq<byte>, fault: Fault): (r: ReadResult)
    ensures |r.buf| == |p|
    ensures r.status.Fail? ==> r.n == 0 && r.buf == p
    ensures r.status == Fail(EOF) <==>
              Addressable(id) && fault.Healthy? && |p| > 0 && |m.heapFile| <= PageOffset(id)
    ensures r.status.Ok? <==>
              Addressable(id) && fault.Healthy? && (|p| == 0 || PageOffset(id) < |m.heapFile|)
    ensures !Addressable(id) ==> r.status == Fail(InvalidOffset)
    ensures Addressable(id) && !fault.Healthy? ==> r.status == Fail(IoError)
    ensures r.status.Ok? ==>
              r.n <= |p| && PageOffset(id) + r.n <= Max(|m.heapFile|, PageOffset(id))
    ensures r.status.Ok? ==> r.n == |p| || PageOffset(id) + r.n == |m.heapFile|
    ensures r.status.Ok? ==> forall i :: 0 <= i < r.n ==> r.buf[i] == m.heapFile[PageOffset(id) + i]
    ensures r.status.Ok? ==> forall i :: r.n <= i < |p| ==> r.buf[i] == p[i]
  {
    match SeekOffset(id)
    case Failure(e) => ReadResult(0, Fail(e), p)
    case Success(offset) =>
      match fault
      case SeekFault => ReadResult(0, Fail(IoError), p)
      case TransferFault(_) => ReadResult(0, Fail(IoError), p)
      case Healthy => ReadAt(m.heapFile, offset, p)
  }
}

=== FILE: os_file.dfy ===
/**
 The part of Go's `os.File` behaviour that the disk manager leans on, over a
 file seen as a plain byte sequence. Holes (regions skipped over by a write
 past the end) read back as zero bytes. The cursor that `Seek` moves is not
 state here: every manager call seeks before it transfers, so a read or write
 is modelled as a positioned transfer at the offset it sought to.
 */
module OsFile {

  newtype byte = x: int | 0 <= x < 256

  /** `Seek` takes an `int64`: this is the largest offset it can be asked for. */
  const MAX_INT64: nat := 0x7fff_ffff_ffff_ffff

  /** The errors the manager can hand back. `EOF` is `io.EOF`; `InvalidOffset` is
      the error `Seek` returns for a negative offset; `IoError` stands for any
      failure the operating system reports (permission, disk full, device). */
  datatype Error = EOF | InvalidOffset | IoError

  /** Go's `err error` result: `nil` or an error value. */
  datatype Status = Ok | Fail(error: Error)

  datatype Result<T> = Success(value: T) | Failure(error: Error)

  /** A failure injected by the operating system into one call. `TransferFault(done)`
      is a read or write system call that fails after `done` bytes went through. */
  datatype Fault = Healthy | SeekFault | TransferFault(done: nat)

  /** What `Read(p)` reports: the count, the error, and the caller's buffer afterwards. */
  datatype ReadResult = ReadResult(n: nat, status: Status, buf: seq<byte>)

  function Min(a: int, b: int): (m: int) { if a <= b then a else b }

  function Max(a: int, b: int): (m: int) { if a >= b then a else b }

  function Zeros(n: nat): (z: seq<byte>)
    ensures |z| == n
    ensures forall i :: 0 <= i < n ==> z[i] == 0
  {
    seq(n, _ => 0 as byte)
  }

  /** Byte `i` of the file's logical contents: past the end everything is zero. */
  function ByteAt(data: seq<byte>, i: nat): (b: byte)
  {
    if i < |data| then data[i] else 0
  }

  /** The contents after `p` is laid over the file at `off`, the file being
      zero-padded up to `off` first. */
  function Overlay(data: seq<byte>, off: nat, p: seq<byte>): (d: seq<byte>)
    ensures |d| == Max(|data|, off + |p|)
    ensures forall i :: 0 <= i < |d| ==>
              d[i] == (if off <= i < off + |p| then p[i - off] else ByteAt(data, i))
  {
    var padded := if |data| < off then data + Zeros(off - |data|) else data;
    assert forall i :: 0 <= i < |padded| ==> padded[i] == ByteAt(data, i);
    if off + |p| < |padded| then padded[..off] + p + padded[off + |p|..]
    else padded[..off] + p
  }

  /** `Write(p)` on a file whose cursor is at `off`. A zero-length write changes
      nothing, not even the length of a file shorter than `off`; otherwise the
      file grows to cover `off + |p|` and the gap, if any, becomes a hole. */
  function WriteAt(data: seq<byte>, off: nat, p: seq<byte>): (d: seq<byte>)
    ensures |p| == 0 ==> d == data
    ensures |p| > 0 ==> |d| == Max(|data|, off + |p|)
    ensures d[..Min(off, |data|)] == data[..Min(off, |data|)]
    ensures forall i :: 0 <= i < |p| ==> d[off + i] == p[i]
    ensures forall i :: |data| <= i < off && i < |d| ==> d[i] == 0
    ensures forall i :: off + |p| <= i < |data| ==> d[i] == data[i]
  {
    if |p| == 0 then data else Overlay(data, off, p)
  }

  /** `Read(buf)` on a file whose cursor is at `off`. An empty buffer reads
      nothing and reports no error, even at the end of the file; otherwise a
      cursor at or past the end reports `io.EOF`, and a cursor inside the file
      copies as many bytes as the buffer and the file both still hold. */
  function ReadAt(data: seq<byte>, off: nat, buf: seq<byte>): (r: ReadResult)
    ensures |r.buf| == |buf|
    ensures r.status.Fail? <==> |buf| > 0 && |data| <= off
    ensures r.status.Fail? ==> r.status.error == EOF && r.n == 0 && r.buf == buf
    ensures r.n <= |buf| && off + r.n <= Max(|data|, off)
    ensures r.status.Ok? ==> r.n == |buf| || off + r.n == |data|
    ensures forall i :: 0 <= i < r.n ==> r.buf[i] == data[off + i]
    ensures forall i :: r.n <= i < |buf| ==> r.buf[i] == buf[i]
  {
    if |buf| == 0 then ReadResult(0, Ok, buf)
    else if |data| <= off then ReadResult(0, Fail(EOF), buf)
    else
      var n := Min(|buf|, |data| - off);
      ReadResult(n, Ok, data[off..off + n] + buf[n..])
  }

  /** A write to `[off, off + |q|)` keeps bytes `p` found at `at`, when the two
      ranges do not overlap. */
  lemma WriteAtKeepsDisjoint(data: seq<byte>, off: nat, q: seq<byte>, at: nat, p: seq<byte>)
    requires at + |p| <= |data| && data[at .. at + |p|] == p
    requires off + |q| <= at || at + |p| <= off
    ensures at + |p| <= |WriteAt(data, off, q)|
    ensures WriteAt(data, off, q)[at .. at + |p|] == p
  {
    var d := WriteAt(data, off, q);
    if |q| > 0 {
      forall i | 0 <= i < |p|
        ensures d[at + i] == p[i]
      {
        assert data[at .. at + |p|][i] == p[i];
        if at + |p| <= off {
          assert d[..Min(off, |data|)][at + i] == data[..Min(off, |data|)][at + i];
        }
      }
      assert d[at .. at + |p|] == p;
    }
  }

  /** A write to `[off, off + |q|)` does not change what a read of `|buf|` bytes at
      `at` returns, when the read starts after the write ends, or the read lies
      before the write and inside the file. */
  lemma WriteAtLeavesReadAt(data: seq<byte>, off: nat, q: seq<byte>, at: nat, buf: seq<byte>)
    requires off + |q| <= at || at + |buf| <= Min(off, |data|)
    ensures ReadAt(WriteAt(data, off, q), at, buf) == ReadAt(data, at, buf)
  {
    var d := WriteAt(data, off, q);
    var before := ReadAt(data, at, buf);
    var after := ReadAt(d, at, buf);
    if |q| > 0 && |buf| > 0 {
      if off + |q| <= at {
        if |data| > at {
          assert |d| == |data|;
          assert after.n == before.n;
          forall i | 0 <= i < |buf|
            ensures after.buf[i] == before.buf[i]
          {
            if i < before.n {
              assert d[at + i] == data[at + i];
            }
          }
        }
      } else {
        var cut := Min(off, |data|);
        assert after.n == |buf| == before.n;
        forall i | 0 <= i < |buf|
          ensures after.buf[i] == before.buf[i]
        {
          assert d[..cut][at + i] == data[..cut][at + i];
        }
      }
    }
  }

  /** Writes to non-overlapping ranges commute. */
  lemma WriteAtCommute(data: seq<byte>, a: nat, p: seq<byte>, b: nat, q: seq<byte>)
    requires a + |p| <= b || b + |q| <= a
    ensures WriteAt(WriteAt(data, a, p), b, q) == WriteAt(WriteAt(data, b, q), a, p)
  {
    if |p| > 0 && |q| > 0 {
      var ap := Overlay(data, a, p);
      var bq := Overlay(data, b, q);
      var abq := Overlay(ap, b, q);
      var bqa := Overlay(bq, a, p);
      assert |abq| == |bqa|;
      forall i | 0 <= i < |abq|
        ensures abq[i] == bqa[i]
      {
        if a <= i < a + |p| {
          assert abq[i] == ByteAt(ap, i) == p[i - a];
        } else if b <= i < b + |q| {
          assert bqa[i] == ByteAt(bq, i) == q[i - b];
        } else {
          assert abq[i] == ByteAt(ap, i) == ByteAt(data, i);
          assert bqa[i] == ByteAt(bq, i) == ByteAt(data, i);
        }
      }
    }
  }
}

=== FILE: overflow.dfy ===
/**
 The page offset as the source computes it, in fixed-width arithmetic:
 `PAGE_SIZE * pageId` is a `uint64` product, which wraps modulo 2^64, and the
 result is converted to `int64` for `Seek`, which rejects the negative values
 that conversion yields for products of 2^63 or more. Once the product wraps,
 a large page id lands on the slot of a small one.
 */
module Overflow {
  import opened OsFile
  import opened Disk

  const TWO_TO_64: nat := 0x1_0000_0000_0000_0000

  /** The offset `Seek` reaches for page `id`, computed as the source writes it. */
  function SeekOffsetAsWritten(id: PageId): (r: Result<nat>)
    requires id < TWO_TO_64
    ensures r.Success? ==> r.value <= MAX_INT64
    ensures r.Failure? ==> r.error == InvalidOffset
  {
    var offset := (PAGE_SIZE * id) % TWO_TO_64;
    if offset <= MAX_INT64 then Success(offset) else Failure(InvalidOffset)
  }

  /** Page 2^52 is a valid `uint64` page id, yet its product wraps to 0, so a
      read or write of it is a read or write of page 0. */
  lemma WrappedOffsetAliasesPageZero()
    ensures 0x10_0000_0000_0000 < TWO_TO_64
    ensures SeekOffsetAsWritten(0x10_0000_0000_0000) == SeekOffsetAsWritten(0) == Success(0)
  {
    assert PAGE_SIZE * 0x10_0000_0000_0000 == TWO_TO_64;
  }

  /** The wrap repeats: every id of 2^52 or more reaches the same slot, or
      meets the same `Seek` error, as the id 2^52 below it. With
      `AsWrittenAgreesBelowWrap` this fixes the source's offset for every
      `uint64` page id. */
  lemma AsWrittenRepeatsEvery2To52(id: PageId)
    requires 0x10_0000_0000_0000 <= id < TWO_TO_64
    ensures SeekOffsetAsWritten(id) == SeekOffsetAsWritten(id - 0x10_0000_0000_0000)
  {
    assert PAGE_SIZE * id == PAGE_SIZE * (id - 0x10_0000_0000_0000) + TWO_TO_64;
  }

  /** Below 2^52 the product does not wrap, so the source's offset is the
      model's: the same offset for addressable ids, the same `Seek` error for the
      rest. */
  lemma AsWrittenAgreesBelowWrap(id: PageId)
    requires id < 0x10_0000_0000_0000
    ensures id < TWO_TO_64
    ensures SeekOffsetAsWritten(id) == SeekOffset(id)
  {
    assert PageOffset(id) < TWO_TO_64;
    assert PAGE_SIZE * id == PageOffset(id);
  }

  /** Ids from 2^51 up to 2^52 have a product of 2^63 or more that does not yet
      wrap: `int64(offset)` is negative and `Seek` fails, in the source as in the
      model. */
  lemma AsWrittenRejectsNegativeInt64(id: PageId)
    requires 0x8_0000_0000_0000 <= id < 0x10_0000_0000_0000
    ensures id < TWO_TO_64
    ensures SeekOffsetAsWritten(id) == SeekOffset(id) == Failure(InvalidOffset)
  {
    AsWrittenAgreesBelowWrap(id);
    assert PageOffset(id) >= PageOffset(0x8_0000_0000_0000) > MAX_INT64;
  }

  /** With the unbounded product the model uses, distinct page ids get page
      slots that do not overlap, and ids the offset cannot represent fail. */
  lemma {:induction false} SlotsNeverOverlap(a: PageId, b: PageId)
    requires a < b && SeekOffset(b).Success?
    ensures SeekOffset(a).Success?
    ensures SeekOffset(a).value + PAGE_SIZE <= SeekOffset(b).value
  {
    assert PageOffset(a) + PAGE_SIZE == PageOffset(a + 1) <= PageOffset(b);
  }
}

=== FILE: page_io.dfy ===
/**
 What page reads observe after page writes: the round trip, the independence of
 byte ranges that do not overlap (whatever order the writes come in), and
 end-of-file for pages nothing has been written to.
 */
module PageIo {
  import opened OsFile
  import opened Disk

  /** One `Write(id, data)` call, meeting `fault` (`Healthy` when it succeeds). */
  datatype PageWrite = PageWrite(id: PageId, data: seq<byte>, fault: Fault)

  /** The manager after the writes `ws`, in order, each meeting its own fault. */
  function WriteAll(m: Manager, ws: seq<PageWrite>): (r: Manager)
    ensures r.nextPageId == m.nextPageId
    decreases |ws|
  {
    if |ws| == 0 then m else WriteAll(Write(m, ws[0].id, ws[0].data, ws[0].fault).m, ws[1..])
  }

  /** Writes never shrink the heap file, whether they succeed or fail. */
  lemma {:induction false} WriteAllNeverShrinks(m: Manager, ws: seq<PageWrite>)
    ensures |WriteAll(m, ws).heapFile| >= |m.heapFile|
    decreases |ws|
  {
    if |ws| > 0 {
      var w := ws[0];
      var m' := Write(m, w.id, w.data, w.fault).m;
      if Addressable(w.id) {
        assert m'.heapFile == WriteAt(m.heapFile, PageOffset(w.id), Landed(w.data, w.fault));
      }
      WriteAllNeverShrinks(m', ws[1..]);
    }
  }

  /** The byte range written by `p` at page `a` and the one of length `len` at
      page `b` do not overlap. */
  predicate RangesDisjoint(a: PageId, p: seq<byte>, b: PageId, len: nat)
  {
    PageOffset(a) + |p| <= PageOffset(b) || PageOffset(b) + len <= PageOffset(a)
  }

  /** The heap file holds `p` at page `id`. */
  predicate Holds(m: Manager, id: PageId, p: seq<byte>)
  {
    |p| == 0 ||
    (PageOffset(id) + |p| <= |m.heapFile| && m.heapFile[PageOffset(id) .. PageOffset(id) + |p|] == p)
  }

  /** What a successful `Write(id, p)` does to the heap file: the bytes at
      `[id * PAGE_SIZE, id * PAGE_SIZE + |p|)` become `p`, every other byte keeps
      its old value, a gap between the old end and the page offset reads as
      zeros, and the file grows to cover the write unless `p` is empty. */
  lemma WriteEffects(m: Manager, id: PageId, p: seq<byte>)
    requires Addressable(id)
    ensures Write(m, id, p, Healthy).n == |p|
    ensures Write(m, id, p, Healthy).status == Ok
    ensures |p| == 0 ==> Write(m, id, p, Healthy).m == m
    ensures |p| > 0 ==> |Write(m, id, p, Healthy).m.heapFile| == Max(|m.heapFile|, PageOffset(id) + |p|)
    ensures forall i :: 0 <= i < |p| ==> Write(m, id, p, Healthy).m.heapFile[PageOffset(id) + i] == p[i]
    ensures forall i :: 0 <= i < |Write(m, id, p, Healthy).m.heapFile| && !(PageOffset(id) <= i < PageOffset(id) + |p|) ==>
              Write(m, id, p, Healthy).m.heapFile[i] == ByteAt(m.heapFile, i)
  {
    var file := Write(m, id, p, Healthy).m.heapFile;
    var off := PageOffset(id);
    assert file == WriteAt(m.heapFile, off, p);
    if |p| > 0 {
      assert file == Overlay(m.heapFile, off, p);
    }
  }

  /** A successful write leaves its bytes in place. */
  lemma WriteEstablishesHolds(m: Manager, id: PageId, p: seq<byte>)
    requires Addressable(id)
    ensures Holds(Write(m, id, p, Healthy).m, id, p)
  {
    var file := Write(m, id, p, Healthy).m.heapFile;
    var off := PageOffset(id);
    assert file == WriteAt(m.heapFile, off, p);
    if |p| > 0 {
      assert file[off .. off + |p|] == p by {
        forall i | 0 <= i < |p|
          ensures file[off .. off + |p|][i] == p[i]
        {
          assert file[off + i] == p[i];
        }
      }
    }
  }

  /** A write to a range that does not overlap `p`'s keeps `p` in place; this
      holds for failed writes too, which leave at most a prefix of their data. */
  lemma DisjointWriteKeepsHolds(m: Manager, id: PageId, p: seq<byte>, w: PageId, q: seq<byte>, fault: Fault)
    requires Holds(m, id, p)
    requires RangesDisjoint(w, q, id, |p|)
    ensures Holds(Write(m, w, q, fault).m, id, p)
  {
    var r := Write(m, w, q, fault);
    if |p| > 0 && Addressable(w) {
      var l := Landed(q, fault);
      var off := PageOffset(id);
      var woff := PageOffset(w);
      assert r.m.heapFile == WriteAt(m.heapFile, woff, l);
      assert woff + |l| <= off || off + |p| <= woff;
      WriteAtKeepsDisjoint(m.heapFile, woff, l, off, p);
    }
  }

  /** Reading back at most `|p|` bytes of a page that holds `p` yields that prefix of `p`. */
  lemma HoldsReadsBack(m: Manager, id: PageId, p: seq<byte>, buf: seq<byte>)
    requires Addressable(id) && Holds(m, id, p) && |buf| <= |p|
    ensures Read(m, id, buf, Healthy) == ReadResult(|buf|, Ok, p[..|buf|])
  {
    var r := Read(m, id, buf, Healthy);
    if |buf| > 0 {
      assert m.heapFile[PageOffset(id) .. PageOffset(id) + |p|] == p;
      assert r.n == |buf|;
      forall i | 0 <= i < |buf|
        ensures r.buf[i] == p[..|buf|][i]
      {
        assert m.heapFile[PageOffset(id) .. PageOffset(id) + |p|][i] == p[i];
      }
    }
  }

  /** Round trip: after `Write(id, p)` succeeds, `Read(id, buf)` with `|buf| <= |p|`
      returns `|buf|` bytes, no error, and the first `|buf|` bytes of `p`. */
  lemma WriteThenRead(m: Manager, id: PageId, p: seq<byte>, buf: seq<byte>)
    requires Addressable(id) && |buf| <= |p|
    ensures Read(Write(m, id, p, Healthy).m, id, buf, Healthy) == ReadResult(|buf|, Ok, p[..|buf|])
  {
    WriteEstablishesHolds(m, id, p);
    HoldsReadsBack(Write(m, id, p, Healthy).m, id, p, buf);
  }

  /** Last write wins: a page reads back what was last written to it, whatever
      writes to non-overlapping ranges come after, in whatever order, and
      whether they succeed or fail. */
  lemma {:induction false} LastWriteWins(m: Manager, id: PageId, p: seq<byte>, later: seq<PageWrite>, buf: seq<byte>)
    requires Addressable(id) && |buf| <= |p|
    requires forall k :: 0 <= k < |later| ==> RangesDisjoint(later[k].id, later[k].data, id, |p|)
    ensures Read(WriteAll(Write(m, id, p, Healthy).m, later), id, buf, Healthy) == ReadResult(|buf|, Ok, p[..|buf|])
  {
    WriteEstablishesHolds(m, id, p);
    HoldsUnderDisjointWrites(Write(m, id, p, Healthy).m, id, p, later);
    HoldsReadsBack(WriteAll(Write(m, id, p, Healthy).m, later), id, p, buf);
  }

  /** A page keeps its bytes through any run of writes, successful or failed,
      to other ranges. */
  lemma {:induction false} HoldsUnderDisjointWrites(m: Manager, id: PageId, p: seq<byte>, ws: seq<PageWrite>)
    requires Holds(m, id, p)
    requires forall k :: 0 <= k < |ws| ==> RangesDisjoint(ws[k].id, ws[k].data, id, |p|)
    ensures Holds(WriteAll(m, ws), id, p)
    decreases |ws|
  {
    if |ws| > 0 {
      DisjointWriteKeepsHolds(m, id, p, ws[0].id, ws[0].data, ws[0].fault);
      var m' := Write(m, ws[0].id, ws[0].data, ws[0].fault).m;
      assert forall k :: 0 <= k < |ws[1..]| ==> ws[1..][k] == ws[k + 1];
      HoldsUnderDisjointWrites(m', id, p, ws[1..]);
    }
  }

  /** A write (successful or not) to a range that does not overlap the bytes a
      read asks for leaves that read's result unchanged, provided the read asked
      for bytes that were already all in the file or lie wholly after the write. */
  lemma DisjointWriteLeavesReadUnchanged(m: Manager, w: PageId, q: seq<byte>, fault: Fault, id: PageId, buf: seq<byte>)
    requires PageOffset(w) + |q| <= PageOffset(id)
          || PageOffset(id) + |buf| <= Min(PageOffset(w), |m.heapFile|)
    ensures Read(Write(m, w, q, fault).m, id, buf, Healthy) == Read(m, id, buf, Healthy)
  {
    if Addressable(w) && Addressable(id) {
      var l := Landed(q, fault);
      WriteAtLeavesReadAt(m.heapFile, PageOffset(w), l, PageOffset(id), buf);
    }
  }

  /** Writes to non-overlapping ranges commute, whether they succeed or fail:
      the heap file ends up the same whichever of the two is issued first. */
  lemma DisjointWritesCommute(m: Manager, a: PageId, p: seq<byte>, fa: Fault, b: PageId, q: seq<byte>, fb: Fault)
    requires RangesDisjoint(a, p, b, |q|)
    ensures Write(Write(m, a, p, fa).m, b, q, fb).m
         == Write(Write(m, b, q, fb).m, a, p, fa).m
  {
    if Addressable(a) && Addressable(b) {
      WriteAtCommute(m.heapFile, PageOffset(a), Landed(p, fa), PageOffset(b), Landed(q, fb));
    }
  }

  /** A page whose slot lies inside the file but was never written reads as
      zeros with no error, not as end of file: a write to a later page leaves a
      hole of zeros in front of it, and the read is served from that hole. */
  lemma HoleReadsAsZeros(m: Manager, id: PageId, w: PageId, q: seq<byte>, buf: seq<byte>)
    requires Addressable(w) && |q| > 0
    requires |m.heapFile| <= PageOffset(id) && PageOffset(id) + |buf| <= PageOffset(w)
    ensures Read(Write(m, w, q, Healthy).m, id, buf, Healthy) == ReadResult(|buf|, Ok, Zeros(|buf|))
  {
    var file := Write(m, w, q, Healthy).m.heapFile;
    assert file == WriteAt(m.heapFile, PageOffset(w), q);
    assert |file| >= PageOffset(w) + |q|;
    var r := Read(Write(m, w, q, Healthy).m, id, buf, Healthy);
    forall i | 0 <= i < |buf|
      ensures r.buf[i] == Zeros(|buf|)[i]
    {
      assert file[PageOffset(id) + i] == 0;
    }
  }

  /** A page stays unreadable (end of file) while every write, successful or
      failed, lands wholly before its offset. */
  lemma {:induction false} UnwrittenPageReadsEOF(m: Manager, id: PageId, ws: seq<PageWrite>, buf: seq<byte>)
    requires Addressable(id) && |buf| > 0 && |m.heapFile| <= PageOffset(id)
    requires forall k :: 0 <= k < |ws| ==> PageOffset(ws[k].id) + |ws[k].data| <= PageOffset(id)
    ensures Read(WriteAll(m, ws), id, buf, Healthy) == ReadResult(0, Fail(EOF), buf)
    decreases |ws|
  {
    if |ws| > 0 {
      var w := ws[0];
      var m' := Write(m, w.id, w.data, w.fault).m;
      if Addressable(w.id) {
        assert |Landed(w.data, w.fault)| <= |w.data|;
        assert m'.heapFile == WriteAt(m.heapFile, PageOffset(w.id), Landed(w.data, w.fault));
      }
      assert |m'.heapFile| <= PageOffset(id);
      assert forall k :: 0 <= k < |ws[1..]| ==> ws[1..][k] == ws[k + 1];
      UnwrittenPageReadsEOF(m', id, ws[1..], buf);
    }
  }
}

=== FILE: scenarios.dfy ===
/**
 The concrete sequences of calls exercised in `disk/manager_test.go`, on a
 freshly created heap file: three ids are allocated, then pages are written
 with 1000 bytes of 'x', 500 bytes of 'y' and 20000 bytes of 'z' (the last one
 running over several page slots) and read back.
 */
module Scenarios {
  import opened OsFile
  import opened Disk
  import opened Allocation
  import opened PageIo

  function Repeat(c: char, n: nat): (s: seq<byte>)
    requires c as int < 256
    ensures |s| == n
    ensures forall i :: 0 <= i < n ==> s[i] == c as int as byte
  {
    seq(n, _ => c as int as byte)
  }

  /** Write page 0, read the unwritten pages 1 and 2 (end of file, buffers left
      zeroed), read page 0 back, then write page 1 and read it back. */
  lemma WriteReadInterleaved()
    ensures
      var alloc := AllocMany(NewManager([], NoOpenFault).value, 3);
      var w0 := Write(alloc.m, alloc.ids[0], Repeat('x', 1000), Healthy);
      var w1 := Write(w0.m, alloc.ids[1], Repeat('y', 500), Healthy);
      && alloc.ids == [0, 1, 2]
      && w0.n == 1000 && w0.status == Ok
      && Read(w0.m, alloc.ids[1], Zeros(500), Healthy) == ReadResult(0, Fail(EOF), Zeros(500))
      && Read(w0.m, alloc.ids[2], Zeros(20000), Healthy) == ReadResult(0, Fail(EOF), Zeros(20000))
      && Read(w0.m, alloc.ids[0], Zeros(1000), Healthy) == ReadResult(1000, Ok, Repeat('x', 1000))
      && w1.n == 500 && w1.status == Ok
      && Read(w1.m, alloc.ids[1], Zeros(500), Healthy) == ReadResult(500, Ok, Repeat('y', 500))
  {
    var alloc := AllocMany(NewManager([], NoOpenFault).value, 3);
    assert alloc.ids == [0, 1, 2];
    var xs := Repeat('x', 1000);
    var ys := Repeat('y', 500);
    WriteEffects(alloc.m, 0, xs);
    var w0 := Write(alloc.m, 0, xs, Healthy);
    assert |w0.m.heapFile| == 1000;
    WriteThenRead(alloc.m, 0, xs, Zeros(1000));
    WriteThenRead(w0.m, 1, ys, Zeros(500));
  }

  /** Write pages 0, 2 and 1 in that order, the 20000-byte write to page 2
      reaching past the slots of pages 3 to 6; each page then reads back exactly
      what was written to it, in any order and as often as it is read. */
  lemma OutOfOrderWritesReadBack()
    ensures
      var alloc := AllocMany(NewManager([], NoOpenFault).value, 3);
      var w0 := Write(alloc.m, alloc.ids[0], Repeat('x', 1000), Healthy);
      var w2 := Write(w0.m, alloc.ids[2], Repeat('z', 20000), Healthy);
      var w1 := Write(w2.m, alloc.ids[1], Repeat('y', 500), Healthy);
      && w0.n == 1000 && w2.n == 20000 && w1.n == 500
      && w0.status == Ok && w2.status == Ok && w1.status == Ok
      && Read(w1.m, alloc.ids[2], Zeros(20000), Healthy) == ReadResult(20000, Ok, Repeat('z', 20000))
      && Read(w1.m, alloc.ids[1], Zeros(500), Healthy) == ReadResult(500, Ok, Repeat('y', 500))
      && Read(w1.m, alloc.ids[0], Zeros(1000), Healthy) == ReadResult(1000, Ok, Repeat('x', 1000))
  {
    var alloc := AllocMany(NewManager([], NoOpenFault).value, 3);
    assert alloc.ids == [0, 1, 2];
    var xs := Repeat('x', 1000);
    var ys := Repeat('y', 500);
    var zs := Repeat('z', 20000);
    var w0 := Write(alloc.m, 0, xs, Healthy);
    var w2 := Write(w0.m, 2, zs, Healthy);
    var w1 := Write(w2.m, 1, ys, Healthy);
    var after0 := [PageWrite(2, zs, Healthy), PageWrite(1, ys, Healthy)];
    assert WriteAll(w0.m, after0) == w1.m by {
      assert after0[1..] == [PageWrite(1, ys, Healthy)];
      assert WriteAll(w2.m, after0[1..]) == WriteAll(w1.m, []);
    }
    LastWriteWins(alloc.m, 0, xs, after0, Zeros(1000));
    var after2 := [PageWrite(1, ys, Healthy)];
    assert WriteAll(w2.m, after2) == w1.m by {
      assert after2[1..] == [];
    }
    LastWriteWins(w0.m, 2, zs, after2, Zeros(20000));
    WriteThenRead(w2.m, 1, ys, Zeros(500));
  }

  /** Allocate pages 0, 1 and 2 on a fresh file and write only page 2: page 1,
      never written, now lies inside the file and reads back as zeros with no
      error, where before the write it read as end of file. */
  lemma SkippedPageReadsAsZeros()
    ensures
      var alloc := AllocMany(NewManager([], NoOpenFault).value, 3);
      var w2 := Write(alloc.m, alloc.ids[2], [7], Healthy);
      && Read(alloc.m, alloc.ids[1], Zeros(10), Healthy) == ReadResult(0, Fail(EOF), Zeros(10))
      && Read(w2.m, alloc.ids[1], Zeros(10), Healthy) == ReadResult(10, Ok, Zeros(10))
  {
    var alloc := AllocMany(NewManager([], NoOpenFault).value, 3);
    assert alloc.ids == [0, 1, 2];
    HoleReadsAsZeros(alloc.m, 1, 2, [7], Zeros(10));
  }
}
